=== FILE: README.md ===
# TeamCity step decoding and schedule-trigger options, in Dafny

This project models two translation layers of the vendored go-teamcity client
inside the Terraform TeamCity provider.

- **Build-step decoding** (`step.go`). `DecodeStep` models `stepReadingFunc`.
  It reads the `type` discriminator of a parsed step envelope. It hands the
  envelope to one of four per-variant decoders: PowerShell, command line,
  Octopus push-package or Octopus create-release. Any other type fails with an
  "Unsupported step type" error that carries the type and the envelope id.
  `DecodeSteps` and `ReadSteps` model `stepsReadingFunc`. They walk a
  `count` + `step[]` envelope for `count` iterations and return either every
  decoded step in input order or the first error. No partial result is returned.
- **Schedule-trigger options ↔ property bag** (`trigger_schedule_options.go`).
  The ten fields of `TriggerScheduleOptions` and their `prop`/`force` tags
  become an explicit descriptor table: field, key, force flag.
  - `ToProperties` writes a field unless the field is at its zero value and not forced.
  - `FromProperties` starts from the all-zero record and fills in the keys present in the bag.
  - `NewTriggerScheduleOptions` is the defaults constructor.

Files: `results.dfy` (Option/Result), `property_bags.dfy` (name/value bag,
first-match lookup, boolean tokens), `step.dfy` (module `Steps`),
`trigger_schedule_options.dfy` (module `ScheduleOptions`).

Two behaviours of the code worth knowing (the model follows them):

- `stepsReadingFunc` never compares `count` with the length of the `step`
  array. When `count` is smaller, trailing items are ignored. When `count` is
  larger, the loop decodes every real item first and only then indexes past
  the end, which panics. A negative `count` panics when the slice is
  allocated. The model turns both panics into errors: `ItemIndexOutOfRange`
  at the first missing index, and `NegativeCount`.
- `triggerScheduleOptions` has no error return. A property value that does not
  parse is not reported. Under the assumed boolean handling described under
  "## Left out", a non-boolean string in a boolean field reads as `false`.

## Model

| member | source | states |
|---|---|---|
| Steps.DecodeStep | vendor/github.com/yext/go-teamcity/teamcity/step.go:81-115 | A type outside the four-entry registry yields exactly `UnsupportedStepType(type, id)`. A registered type runs that kind's decoder. Success gives a step of exactly the registered kind around the decoder's value. The decoder's failure is returned unchanged. |
| Steps.Wrap | vendor/github.com/yext/go-teamcity/teamcity/step.go:89-105 | Each kind is built into its own variant, which keeps the decoded body. |
| Steps.UnsupportedMessage | vendor/github.com/yext/go-teamcity/teamcity/step.go:106-107 | The error text is "Unsupported step type: '", then the step type, then "' (id:'", then the id, then "')". Each piece sits at its fixed position and the length is their sum. |
| Steps.Message | vendor/github.com/yext/go-teamcity/teamcity/step.go:66-107 | An unsupported type yields the unsupported-type text, and a variant decoder's failure keeps its own text. The negative-count panic (line 66) gets exactly "runtime error: makeslice: len out of range". The index panic (line 68) gets exactly "runtime error: index out of range [i] with length n", with the index and the array length in decimal. |
| Steps.DecimalDigits | vendor/github.com/yext/go-teamcity/teamcity/step.go:68 | The digits written for a number in the index panic are decimal digits, denote that number, and have no leading zero: zero is written "0". |
| Steps.Reencode | vendor/github.com/yext/go-teamcity/teamcity/step.go:68 | A present item comes through the marshal/unmarshal round trip unchanged. A JSON null item comes back as an envelope with an empty id and a type outside the registry. |
| Steps.ItemAt | vendor/github.com/yext/go-teamcity/teamcity/step.go:67-72 | An index at or past the array fails as out of range. A null item fails as an unsupported type with empty type and id. A success happens only for a present item whose type is registered, and it has that type's kind. |
| Steps.UnregisteredTypesRejected | vendor/github.com/yext/go-teamcity/teamcity/step.go:11-20 | The declared constant `dotnet.cli` and the empty type are both rejected with the unsupported-type error, and the message names the type. |
| Steps.DecodePrefix | vendor/github.com/yext/go-teamcity/teamcity/step.go:66-76 | The first n iterations map with failure. On success there are exactly n steps and step i is the single-item decode of iteration i. On failure the error is that of the first failing iteration, and all earlier iterations succeeded. |
| Steps.DecodeSteps | vendor/github.com/yext/go-teamcity/teamcity/step.go:60-79 | A negative count fails. A zero count gives the empty sequence without looking at the items. Otherwise the result is exactly what the first `count` iterations decode. |
| Steps.ReadSteps | vendor/github.com/yext/go-teamcity/teamcity/step.go:60-79 | The loop over `count` returns the first error, or all `count` steps in input order, and satisfies the same characterisation as `DecodeSteps`. |
| Steps.DecodedAllUnique | vendor/github.com/yext/go-teamcity/teamcity/step.go:66-78 | The all-or-first-error characterisation admits one result only, so the loop and the recursive definition agree. |
| Steps.AnyFailureAbortsCollection | vendor/github.com/yext/go-teamcity/teamcity/step.go:68-77 | If any iteration below `count` fails, the whole collection fails. |
| Steps.TrailingItemsIgnored | vendor/github.com/yext/go-teamcity/teamcity/step.go:66-68 | Items past `count` never influence the result. |
| Steps.CountBeyondItemsFails | vendor/github.com/yext/go-teamcity/teamcity/step.go:66-68 | If `count` exceeds the array and every real item decodes, the result is an out-of-range failure at index `len(items)`. |
| Steps.CollectionPreservesOrder | vendor/github.com/yext/go-teamcity/teamcity/step.go:66-76 | Items [command-line, PowerShell] decode to [command-line step, PowerShell step], in that order. |
| ScheduleOptions.NewTriggerScheduleOptions | vendor/github.com/yext/go-teamcity/teamcity/trigger_schedule_options.go:18-26 | The three forced flags are true, the build branch is "<default>" and the revision rule is LatestFinishedBuild. Every other field is zero. |
| ScheduleOptions.ToProperties | vendor/github.com/yext/go-teamcity/teamcity/trigger_schedule_options.go:28-30 | The encoded bag never repeats a key, and decoding it from the zero record gives the original options back. |
| ScheduleOptions.FromProperties | vendor/github.com/yext/go-teamcity/teamcity/trigger_schedule_options.go:32-38 | Decoding starts from the zero record (line 33). Each row's field ends as the parsed first value under its key, or keeps its zero value when the key is absent. |
| ScheduleOptions.IsZeroIsZeroValue | vendor/github.com/yext/go-teamcity/teamcity/trigger_schedule_options.go:28-30 | For a value of a field's type, the zero test the encoder uses holds exactly when the value is that field's zero value. |
| ScheduleOptions.ZeroOptionsField | vendor/github.com/yext/go-teamcity/teamcity/trigger_schedule_options.go:33 | Every field of the record decoding starts from holds its zero value. |
| ScheduleOptions.EncodeWith | vendor/github.com/yext/go-teamcity/teamcity/trigger_schedule_options.go:28-30 | Over any descriptor list, the bag has at most one entry per descriptor. |
| ScheduleOptions.FillField | vendor/github.com/yext/go-teamcity/teamcity/trigger_schedule_options.go:35 | Reading one key into the record changes nothing when the key is absent. When it is present, the key's field becomes the parsed first value under it. |
| ScheduleOptions.DecodeWith | vendor/github.com/yext/go-teamcity/teamcity/trigger_schedule_options.go:35 | If none of the list's keys is in the bag, decoding leaves the starting record unchanged. |
| ScheduleOptions.DecodeWithAll | vendor/github.com/yext/go-teamcity/teamcity/trigger_schedule_options.go:32-38 | Over a well-formed list, every row's field ends as the parsed first value under its key, or keeps its starting value. |
| ScheduleOptions.Format | vendor/github.com/yext/go-teamcity/teamcity/trigger_schedule_options.go:29 | A boolean is written in a form the boolean parser reads back as the same boolean. A string is written as it is. |
| ScheduleOptions.Parse | vendor/github.com/yext/go-teamcity/teamcity/trigger_schedule_options.go:35 | The value always has the field's type. A string field takes the text as it is. A boolean field is true exactly when the text parses as true, so unparseable text gives false. |
| PropertyBags.Lookup | vendor/github.com/yext/go-teamcity/teamcity/trigger_schedule_options.go:35 | A key is found exactly when some entry of the bag has that name. |
| PropertyBags.FormatBool | vendor/github.com/yext/go-teamcity/teamcity/trigger_schedule_options.go:29 | A boolean is written as exactly "true" or "false", "true" precisely for true, and the boolean parser reads it back as the same boolean. |
| PropertyBags.ParseBool | vendor/github.com/yext/go-teamcity/teamcity/trigger_schedule_options.go:35 | A string is rejected exactly when it is none of the twelve `strconv.ParseBool` tokens. An accepted token starts with one of 0, 1, t, f, T, F, and it reads as true exactly when that first character is 1, t or T. |
| ScheduleOptions.DescriptorRowsDiffer | vendor/github.com/yext/go-teamcity/teamcity/trigger_schedule_options.go:5-14 | Two rows at different positions of the table hold different fields and different keys. |
| ScheduleOptions.DescriptorsWellFormed | vendor/github.com/yext/go-teamcity/teamcity/trigger_schedule_options.go:5-14 | The table names no field twice and its ten keys are pairwise distinct. |
| ScheduleOptions.Position | vendor/github.com/yext/go-teamcity/teamcity/trigger_schedule_options.go:4-15 | Every field of the record has a row in the table. |
| ScheduleOptions.SetLeavesOthers | vendor/github.com/yext/go-teamcity/teamcity/trigger_schedule_options.go:4-15 | Setting one field through the table changes no other field. |
| ScheduleOptions.EncodeWithLookup | vendor/github.com/yext/go-teamcity/teamcity/trigger_schedule_options.go:28-30 | Over any well-formed descriptor list, a key is in the encoded bag iff its field is forced or non-zero, and then it carries the formatted value. Keys outside the list never appear. |
| ScheduleOptions.EncodedEntry | vendor/github.com/yext/go-teamcity/teamcity/trigger_schedule_options.go:28-30 | For each row of the table, the encoded bag holds the field's formatted value when the field is forced or non-zero, and nothing otherwise. |
| ScheduleOptions.EncodeEmissionRule | vendor/github.com/yext/go-teamcity/teamcity/trigger_schedule_options.go:4-30 | The emission rule for all ten keys together. A key that names no field is never emitted. |
| ScheduleOptions.ForcedRows | vendor/github.com/yext/go-teamcity/teamcity/trigger_schedule_options.go:5-7 | Exactly the first three rows are forced: `enableQueueOptimization`, `promoteWatchedBuild` and `triggerBuildWithPendingChangesOnly`. |
| ScheduleOptions.ForcedKeysAlwaysPresent | vendor/github.com/yext/go-teamcity/teamcity/trigger_schedule_options.go:5-7 | Every forced key is in every encoded bag with its field's formatted value, including "false". |
| ScheduleOptions.EncodeWithDistinct | vendor/github.com/yext/go-teamcity/teamcity/trigger_schedule_options.go:28-30 | Encoding a well-formed descriptor list never repeats a key and uses only the list's keys. |
| ScheduleOptions.EncodeKeysDistinct | vendor/github.com/yext/go-teamcity/teamcity/trigger_schedule_options.go:5-14 | An encoded bag never contains a duplicate key. |
| ScheduleOptions.EncodeWithOrdered | vendor/github.com/yext/go-teamcity/teamcity/trigger_schedule_options.go:28-30 | The encoded names are a subsequence of the descriptor keys. |
| ScheduleOptions.EncodeFollowsDeclarationOrder | vendor/github.com/yext/go-teamcity/teamcity/trigger_schedule_options.go:4-30 | Encoded entries follow field declaration order. |
| ScheduleOptions.FillFieldGet | vendor/github.com/yext/go-teamcity/teamcity/trigger_schedule_options.go:32-38 | Reading one key into the record changes only that key's field: to the parsed value when the key is present, and not at all when it is absent. |
| ScheduleOptions.DecodeWithUnlisted | vendor/github.com/yext/go-teamcity/teamcity/trigger_schedule_options.go:32-38 | A field that no descriptor of the list names keeps its starting value through decoding. |
| PropertyBags.LookupFirstMatch | vendor/github.com/yext/go-teamcity/teamcity/trigger_schedule_options.go:33-35 | Looking a key up in a bag finds it iff some entry has that name, and then returns the value of the first such entry. |
| ScheduleOptions.DecodeWithGet | vendor/github.com/yext/go-teamcity/teamcity/trigger_schedule_options.go:32-38 | Over a well-formed list, the field of each row ends up as the parsed first value under its key, or keeps its starting value when the key is absent. |
| ScheduleOptions.DecodedField | vendor/github.com/yext/go-teamcity/teamcity/trigger_schedule_options.go:32-38 | A decoded field holds the parsed value of its key, or its zero value when the key is absent. |
| ScheduleOptions.DecodeFieldRule | vendor/github.com/yext/go-teamcity/teamcity/trigger_schedule_options.go:32-38 | The same rule for all ten rows of the table. |
| ScheduleOptions.DecodeEmptyBag | vendor/github.com/yext/go-teamcity/teamcity/trigger_schedule_options.go:33-35 | An empty bag decodes to the all-zero record, which differs from the defaults record. |
| ScheduleOptions.RoundTripField | vendor/github.com/yext/go-teamcity/teamcity/trigger_schedule_options.go:28-38 | Each field comes back from an encode/decode round trip. It is either written and parsed back, or zero, omitted, and zero again. |
| ScheduleOptions.RoundTripWithRow | vendor/github.com/yext/go-teamcity/teamcity/trigger_schedule_options.go:28-38 | Over a well-formed list, the field of each row comes back from encoding then decoding from the zero record. |
| ScheduleOptions.RoundTripWith | vendor/github.com/yext/go-teamcity/teamcity/trigger_schedule_options.go:28-38 | Over any well-formed descriptor list that names every field, decoding the encoding from the zero record gives the value back. |
| ScheduleOptions.RoundTrip | vendor/github.com/yext/go-teamcity/teamcity/trigger_schedule_options.go:28-38 | Decoding the encoding of any options value gives that value back. |
| ScheduleOptions.UnknownKeyIgnoredWith | vendor/github.com/yext/go-teamcity/teamcity/trigger_schedule_options.go:32-38 | Over any descriptor list, inserting an entry whose key the list does not name leaves the decoded record unchanged. |
| ScheduleOptions.UnknownKeyIgnored | vendor/github.com/yext/go-teamcity/teamcity/trigger_schedule_options.go:32-38 | An entry whose key names no field does not change the decoded record, wherever it sits in the bag. |
| ScheduleOptions.ReencodeKeepsNonDefaultEntries | vendor/github.com/yext/go-teamcity/teamcity/trigger_schedule_options.go:28-38 | Take a known key whose value is in canonical form, and whose field is forced or decodes to non-zero. After decode then encode, that key carries the same value. |
| ScheduleOptions.DefaultsEntries | vendor/github.com/yext/go-teamcity/teamcity/trigger_schedule_options.go:18-29 | Encoding the defaults record row by row yields exactly the three forced "true" entries, then the revision rule, then the build branch. |
| ScheduleOptions.DefaultsEncoding | vendor/github.com/yext/go-teamcity/teamcity/trigger_schedule_options.go:18-38 | The defaults record encodes to exactly the three forced "true" entries, then the revision rule, then the build branch. That bag decodes back to the defaults record. |

## Left out

- JSON parsing and re-marshalling (`json.Unmarshal`, `json.Marshal`): envelopes arrive already parsed. Re-marshalling a collection item is the identity, except that a JSON null item becomes the zero envelope. That envelope has type "", so it fails as unsupported. A `count` outside the int32 range is rejected by the JSON layer and is not modelled.
- The per-variant decoders (`StepPowershell.UnmarshalJSON` and the other three) are defined in files that are not part of this model. They are parameters (`VariantDecoders`): total functions that may fail with any error.
- The `Step` interface methods (`GetID`, `GetName`, `Type`, `serializable`) and the `Href`/`Inherited`/XML passthrough carry no behaviour in the modelled code. The `StepExecuteMode` constants are unused there too.
- `replaceValue` writes the result through an `interface{}` pointer. Returning the `Result` value takes its place.
- The reflective `serializeToProperties` and `fillStructFromProperties` (properties.go is not part of this model) are replaced by the explicit descriptor table for this one record. Their value handling is assumed to be: booleans written as "true"/"false" (Go `strconv.FormatBool`), booleans read with the `strconv.ParseBool` token set with a parse failure leaving `false`, strings passed through, and the first entry with a key winning.
- `ArtifactDependencyRevision` is defined in a file that is not part of this model. It is modelled as a string enumeration whose zero value is "", with `LatestFinishedBuild` = "lastFinished".
- Go panics are modelled as error values (`NegativeCount`, `ItemIndexOutOfRange`). A real panic would not be returned to the caller. `Message` gives each the text Go's runtime panics with, but `stepsReadingFunc` itself reports no text for them.
- `Format`, `Parse`, `Lookup`, `FormatBool` and `ParseBool` model the assumed value handling of `serializeToProperties` and `fillStructFromProperties` stated above, not code that is part of this model.

=== FILE: property_bags.dfy ===
/**
 The server's generic configuration format: an ordered list of name/value
 string pairs, and the string encodings of the scalar values stored in it.
 */
module PropertyBags {
  import opened Results

  datatype Property = Property(name: string, value: string)

  type PropertyBag = seq<Property>

  /** The names of a bag, in wire order. */
  function Names(bag: PropertyBag): (ns: seq<string>)
    ensures |ns| == |bag|
    ensures forall i :: 0 <= i < |bag| ==> ns[i] == bag[i].name
  {
    if bag == [] then [] else [bag[0].name] + Names(bag[1..])
  }

  /** No name occurs twice. */
  predicate Distinct(ns: seq<string>)
  {
    forall i, j :: 0 <= i < j < |ns| ==> ns[i] != ns[j]
  }

  /** The value stored under `key`: the first entry with that name, or `None`. */
  function Lookup(bag: PropertyBag, key: string): (r: Option<string>)
    ensures r.None? <==> key !in Names(bag)
  {
    if bag == [] then None
    else if bag[0].name == key then Some(bag[0].value)
    else Lookup(bag[1..], key)
  }

  /**
   `Lookup` finds a key exactly when the bag has an entry with that name, and
   then returns the value of the first such entry.
   */
  lemma {:induction false} LookupFirstMatch(bag: PropertyBag, key: string)
    ensures Lookup(bag, key).None? <==> key !in Names(bag)
    ensures Lookup(bag, key).Some? ==>
              exists i :: 0 <= i < |bag| && bag[i] == Property(key, Lookup(bag, key).value)
                          && forall j :: 0 <= j < i ==> bag[j].name != key
  {
    if bag != [] {
      assert Names(bag) == [bag[0].name] + Names(bag[1..]);
      if bag[0].name == key {
        assert bag[0] == Property(key, bag[0].value);
      } else {
        LookupFirstMatch(bag[1..], key);
        var r := Lookup(bag[1..], key);
        if r.Some? {
          var i :| 0 <= i < |bag[1..]| && bag[1..][i] == Property(key, r.value)
                   && forall j :: 0 <= j < i ==> bag[1..][j].name != key;
          assert bag[i + 1] == Property(key, r.value);
        }
      }
    }
  }

  /** An entry whose name is not `key` does not change what `key` looks up to, wherever it sits. */
  lemma {:induction false} LookupSkipsOtherName(front: PropertyBag, p: Property, back: PropertyBag, key: string)
    requires p.name != key
    ensures Lookup(front + [p] + back, key) == Lookup(front + back, key)
  {
    if front == [] {
      assert front + [p] + back == [p] + back;
      assert ([p] + back)[1..] == back;
      assert front + back == back;
    } else {
      var long := front + [p] + back;
      var short := front + back;
      assert long[0] == front[0] && short[0] == front[0];
      assert long[1..] == front[1..] + [p] + back;
      assert short[1..] == front[1..] + back;
      if front[0].name != key {
        LookupSkipsOtherName(front[1..], p, back, key);
      }
    }
  }

  /** The strings Go's `strconv.ParseBool` reads as true. */
  const TrueTokens: set<string> := {"1", "t", "T", "TRUE", "true", "True"}

  /** The strings Go's `strconv.ParseBool` reads as false. */
  const FalseTokens: set<string> := {"0", "f", "F", "FALSE", "false", "False"}

  /** Boolean literal as written by Go's `strconv.FormatBool`. */
  function FormatBool(b: bool): (s: string)
    ensures s == "true" || s == "false"
    ensures s == "true" <==> b
    ensures ParseBool(s) == Some(b)
  {
    if b then "true" else "false"
  }

  /**
   Boolean parse with the token set of Go's `strconv.ParseBool`; any other
   string is not a boolean.
   */
  function ParseBool(s: string): (r: Option<bool>)
    ensures r.None? <==> s !in TrueTokens + FalseTokens
    ensures r.Some? ==> |s| >= 1 && s[0] in "01tfTF" && (r.value <==> s[0] in "1tT")
    ensures s == "true" ==> r == Some(true)
    ensures s == "false" ==> r == Some(false)
  {
    if s in TrueTokens then Some(true)
    else if s in FalseTokens then Some(false)
    else None
  }
}

=== FILE: results.dfy ===
/** Failure-carrying wrappers shared by the step decoder and the property mapper. */
module Results {

  /** An optional value; `None` stands for an absent key or a JSON null. */
  datatype Option<+T> = None | Some(value: T)

  /** The outcome of a decode: a value, or the error that aborted it. */
  datatype Result<+T, +E> = Ok(value: T) | Err(error: E)
}

=== FILE: step.dfy ===
/**
 Build-step decoding: the discriminator dispatch for one already-parsed step
 envelope, and the count-driven decoding of a `count` + `step[]` collection.

 JSON parsing is outside the model: envelopes arrive as records, and the
 re-marshal of a collection item before it is decoded on its own is the
 identity, except that a JSON null item comes back as the zero envelope.
 */
module Steps {
  import opened Results
  import opened PropertyBags

  /** The wire type of `stepsJSON.Count`. */
  newtype int32 = x: int | -0x8000_0000 <= x < 0x8000_0000

  type BuildStepType = string

  const StepTypePowershell: BuildStepType := "jetbrains_powershell"
  /** Declared by the library, but no decoder is registered for it. */
  const StepTypeDotnetCli: BuildStepType := "dotnet.cli"
  const StepTypeCommandLine: BuildStepType := "simpleRunner"
  const StepTypeOctopusPushPackage: BuildStepType := "octopus.push.package"
  const StepTypeOctopusCreateRelease: BuildStepType := "octopus.create.release"

  /** The parsed `stepJSON` envelope; the two optional booleans are pointers on the wire. */
  datatype StepEnvelope = StepEnvelope(
    disabled: Option<bool>,
    href: string,
    id: string,
    inherited: Option<bool>,
    name: string,
    properties: Option<PropertyBag>,
    stepType: BuildStepType)

  /** What a JSON null parses to: every field at its zero value. */
  const ZeroEnvelope := StepEnvelope(None, "", "", None, "", None, "")

  /** The parsed `stepsJSON` envelope; `None` items are JSON nulls in the `step` array. */
  datatype StepsEnvelope = StepsEnvelope(count: int32, items: seq<Option<StepEnvelope>>)

  /** The four step kinds that have a decoder. */
  datatype StepKind = PowerShell | CommandLine | OctopusPushPackage | OctopusCreateRelease

  /** A decoded step: one variant per kind, carrying what that kind's own decoder built. */
  datatype Step<+S> =
    | PowerShellStep(body: S)
    | CommandLineStep(body: S)
    | OctopusPushPackageStep(body: S)
    | OctopusCreateReleaseStep(body: S)
  {
    function Kind(): StepKind
    {
      match this
      case PowerShellStep(_) => PowerShell
      case CommandLineStep(_) => CommandLine
      case OctopusPushPackageStep(_) => OctopusPushPackage
      case OctopusCreateReleaseStep(_) => OctopusCreateRelease
    }
  }

  /** Builds the variant of kind `k` around a decoded body. */
  function Wrap<S>(k: StepKind, body: S): (s: Step<S>)
    ensures s.Kind() == k && s.body == body
  {
    match k
    case PowerShell => PowerShellStep(body)
    case CommandLine => CommandLineStep(body)
    case OctopusPushPackage => OctopusPushPackageStep(body)
    case OctopusCreateRelease => OctopusCreateReleaseStep(body)
  }

  datatype DecodeError =
    /** No decoder is registered for the envelope's type. */
    | UnsupportedStepType(stepType: string, id: string)
    /** A per-variant decoder rejected the envelope. */
    | VariantDecodeFailed(reason: string)
    /** The collection declared a negative count; `stepsReadingFunc` panics allocating the slice. */
    | NegativeCount(count: int32)
    /** The count reached past the item array; `stepsReadingFunc` panics indexing it. */
    | ItemIndexOutOfRange(index: nat, length: nat)

  /** The per-variant decoders, defined outside this model; each may fail. */
  datatype VariantDecoders<S> = VariantDecoders(
    powershell: StepEnvelope -> Result<S, DecodeError>,
    commandLine: StepEnvelope -> Result<S, DecodeError>,
    octopusPushPackage: StepEnvelope -> Result<S, DecodeError>,
    octopusCreateRelease: StepEnvelope -> Result<S, DecodeError>)
  {
    /** The decoder belonging to kind `k`. */
    function Run(k: StepKind, env: StepEnvelope): Result<S, DecodeError>
    {
      match k
      case PowerShell => powershell(env)
      case CommandLine => commandLine(env)
      case OctopusPushPackage => octopusPushPackage(env)
      case OctopusCreateRelease => octopusCreateRelease(env)
    }
  }

  /** The registry of supported discriminators: exactly four entries. */
  const Registry: map<BuildStepType, StepKind> := map[
    StepTypePowershell := PowerShell,
    StepTypeCommandLine := CommandLine,
    StepTypeOctopusPushPackage := OctopusPushPackage,
    StepTypeOctopusCreateRelease := OctopusCreateRelease]

  const UnsupportedPrefix := "Unsupported step type: '"
  const UnsupportedMiddle := "' (id:'"
  const UnsupportedSuffix := "')"

  /** The text of an unsupported-type error; the type and the id sit at fixed places in it. */
  function UnsupportedMessage(stepType: string, id: string): (m: string)
    ensures |m| == |UnsupportedPrefix| + |stepType| + |UnsupportedMiddle| + |id| + |UnsupportedSuffix|
    ensures m[..|UnsupportedPrefix|] == UnsupportedPrefix
    ensures m[|UnsupportedPrefix|..|UnsupportedPrefix| + |stepType|] == stepType
    ensures m[|UnsupportedPrefix| + |stepType|..|UnsupportedPrefix| + |stepType| + |UnsupportedMiddle|] == UnsupportedMiddle
    ensures m[|m| - |UnsupportedSuffix| - |id|..|m| - |UnsupportedSuffix|] == id
    ensures m[|m| - |UnsupportedSuffix|..] == UnsupportedSuffix
  {
    UnsupportedPrefix + stepType + UnsupportedMiddle + id + UnsupportedSuffix
  }

  /** The number a string of decimal digits denotes, most significant digit first. */
  function DigitsValue(s: string): int
  {
    if s == [] then 0 else 10 * DigitsValue(s[..|s| - 1]) + (s[|s| - 1] as int - '0' as int)
  }

  /** Decimal digits of `n`, as Go's `%d` writes a non-negative number: no leading zero. */
  function DecimalDigits(n: nat): (s: string)
    ensures |s| >= 1
    ensures forall i :: 0 <= i < |s| ==> '0' <= s[i] <= '9'
    ensures DigitsValue(s) == n
    ensures s[0] == '0' ==> s == "0"
    decreases n
  {
    var last := [('0' as int + n % 10) as char];
    if n < 10 then last
    else
      var front := DecimalDigits(n / 10);
      assert (front + last)[..|front|] == front;
      front + last
  }

  const RuntimeErrorPrefix := "runtime error: "

  /**
   The text of each failure. An unsupported type and a variant decoder's
   failure are returned errors; for the two panics the text is the one Go's
   runtime panics with, since `stepsReadingFunc` returns nothing for them.
   */
  function Message(e: DecodeError): (m: string)
    ensures e.UnsupportedStepType? ==> m == UnsupportedMessage(e.stepType, e.id)
    ensures e.VariantDecodeFailed? ==> m == e.reason
    ensures e.NegativeCount? ==> m == RuntimeErrorPrefix + "makeslice: len out of range"
    ensures e.ItemIndexOutOfRange? ==>
              m == RuntimeErrorPrefix + "index out of range [" + DecimalDigits(e.index)
                   + "] with length " + DecimalDigits(e.length)
  {
    match e
    case UnsupportedStepType(t, id) => UnsupportedMessage(t, id)
    case VariantDecodeFailed(reason) => reason
    case NegativeCount(_) => RuntimeErrorPrefix + "makeslice: len out of range"
    case ItemIndexOutOfRange(i, n) =>
      RuntimeErrorPrefix + "index out of range [" + DecimalDigits(i) + "] with length " + DecimalDigits(n)
  }

  /**
   Single-item decode: switch on the discriminator, run the matching
   variant decoder, and pass its error through unchanged.
   */
  function DecodeStep<S>(env: StepEnvelope, d: VariantDecoders<S>): (r: Result<Step<S>, DecodeError>)
    ensures env.stepType !in Registry ==> r == Err(UnsupportedStepType(env.stepType, env.id))
    ensures env.stepType in Registry && d.Run(Registry[env.stepType], env).Err? ==>
              r == Err(d.Run(Registry[env.stepType], env).error)
    ensures r.Ok? <==> env.stepType in Registry && d.Run(Registry[env.stepType], env).Ok?
    ensures r.Ok? ==> r.value.Kind() == Registry[env.stepType]
                      && r.value.body == d.Run(Registry[env.stepType], env).value
  {
    var t := env.stepType;
    var kind :=
      if t == StepTypePowershell then Some(PowerShell)
      else if t == StepTypeCommandLine then Some(CommandLine)
      else if t == StepTypeOctopusPushPackage then Some(OctopusPushPackage)
      else if t == StepTypeOctopusCreateRelease then Some(OctopusCreateRelease)
      else None;
    match kind
    case None => Err(UnsupportedStepType(t, env.id))
    case Some(k) =>
      match d.Run(k, env)
      case Err(e) => Err(e)
      case Ok(body) => Ok(Wrap(k, body))
  }

  /** The declared `dotnet.cli` type and the empty type are rejected, naming the type and the id. */
  lemma UnregisteredTypesRejected<S>(env: StepEnvelope, d: VariantDecoders<S>)
    requires env.stepType == StepTypeDotnetCli || env.stepType == ""
    ensures DecodeStep(env, d) == Err(UnsupportedStepType(env.stepType, env.id))
    ensures Message(DecodeStep(env, d).error)[|UnsupportedPrefix|..|UnsupportedPrefix| + |env.stepType|] == env.stepType
  {
  }

  /** A collection item after its `json.Marshal`/`json.Unmarshal` round trip in `stepsReadingFunc`. */
  function Reencode(item: Option<StepEnvelope>): (env: StepEnvelope)
    ensures item.Some? ==> env == item.value
    ensures item.None? ==> env.stepType !in Registry && env.id == ""
  {
    match item
    case Some(env) => env
    case None => ZeroEnvelope
  }

  /** The outcome of loop iteration `k`: index past the array, or the single-item decode. */
  function ItemAt<S>(items: seq<Option<StepEnvelope>>, k: nat, d: VariantDecoders<S>): (r: Result<Step<S>, DecodeError>)
    ensures k >= |items| ==> r == Err(ItemIndexOutOfRange(k, |items|))
    ensures k < |items| && items[k].None? ==> r == Err(UnsupportedStepType("", ""))
    ensures r.Ok? ==> (k < |items| && items[k].Some? && items[k].value.stepType in Registry
                       && r.value.Kind() == Registry[items[k].value.stepType])
  {
    if k < |items| then DecodeStep(Reencode(items[k]), d)
    else Err(ItemIndexOutOfRange(k, |items|))
  }

  /**
   What decoding the first `n` loop iterations means: either every iteration
   succeeded and the steps are their results in order, or the result is the
   error of the first iteration that failed.
   */
  ghost predicate DecodedAll<S>(items: seq<Option<StepEnvelope>>, n: nat, d: VariantDecoders<S>,
                                r: Result<seq<Step<S>>, DecodeError>)
  {
    match r
    case Ok(steps) =>
      |steps| == n && forall i :: 0 <= i < n ==> ItemAt(items, i, d) == Ok(steps[i])
    case Err(e) =>
      exists k :: 0 <= k < n && ItemAt(items, k, d) == Err(e)
                  && forall i :: 0 <= i < k ==> ItemAt(items, i, d).Ok?
  }

  /** Map-with-failure over the first `n` iterations. */
  function DecodePrefix<S>(items: seq<Option<StepEnvelope>>, n: nat, d: VariantDecoders<S>)
    : (r: Result<seq<Step<S>>, DecodeError>)
    ensures DecodedAll(items, n, d, r)
  {
    if n == 0 then Ok([])
    else
      match DecodePrefix(items, n - 1, d)
      case Err(e) => Err(e)
      case Ok(steps) =>
        match ItemAt(items, n - 1, d)
        case Err(e) => Err(e)
        case Ok(s) => Ok(steps + [s])
  }

  /** Collection decode: the declared count drives the iteration. */
  function DecodeSteps<S>(env: StepsEnvelope, d: VariantDecoders<S>): (r: Result<seq<Step<S>>, DecodeError>)
    ensures env.count < 0 ==> r == Err(NegativeCount(env.count))
    ensures env.count == 0 ==> r == Ok([])
    ensures env.count >= 0 ==> DecodedAll(env.items, env.count as nat, d, r)
  {
    if env.count < 0 then Err(NegativeCount(env.count))
    else DecodePrefix(env.items, env.count as nat, d)
  }

  /**
   The loop of `stepsReadingFunc`: decode items 0 .. count-1 in order, return the
   first error, and hand out the steps only once every item succeeded.
   */
  method ReadSteps<S>(env: StepsEnvelope, d: VariantDecoders<S>) returns (r: Result<seq<Step<S>>, DecodeError>)
    ensures env.count < 0 ==> r == Err(NegativeCount(env.count))
    ensures env.count >= 0 ==> DecodedAll(env.items, env.count as nat, d, r)
  {
    if env.count < 0 {
      return Err(NegativeCount(env.count));
    }
    var steps: seq<Step<S>> := [];
    var i: nat := 0;
    while i < env.count as nat
      invariant i <= env.count as nat
      invariant |steps| == i
      invariant forall j :: 0 <= j < i ==> ItemAt(env.items, j, d) == Ok(steps[j])
    {
      if i >= |env.items| {
        assert ItemAt(env.items, i, d) == Err(ItemIndexOutOfRange(i, |env.items|));
        return Err(ItemIndexOutOfRange(i, |env.items|));
      }
      var item := DecodeStep(Reencode(env.items[i]), d);
      if item.Err? {
        assert ItemAt(env.items, i, d) == Err(item.error);
        return Err(item.error);
      }
      steps := steps + [item.value];
      i := i + 1;
    }
    return Ok(steps);
  }

  /** `DecodedAll` pins the result down: the loop and the recursive definition agree. */
  lemma DecodedAllUnique<S>(items: seq<Option<StepEnvelope>>, n: nat, d: VariantDecoders<S>,
                            r1: Result<seq<Step<S>>, DecodeError>, r2: Result<seq<Step<S>>, DecodeError>)
    requires DecodedAll(items, n, d, r1) && DecodedAll(items, n, d, r2)
    ensures r1 == r2
  {
    match r1 {
      case Ok(s1) =>
        match r2 {
          case Ok(s2) =>
            forall i | 0 <= i < n
              ensures s1[i] == s2[i]
            {
              assert ItemAt(items, i, d) == Ok(s1[i]) && ItemAt(items, i, d) == Ok(s2[i]);
            }
            assert s1 == s2;
          case Err(_) =>
            assert false;
        }
      case Err(e1) =>
        match r2 {
          case Ok(_) =>
            assert false;
          case Err(e2) =>
            var k1 :| 0 <= k1 < n && ItemAt(items, k1, d) == Err(e1)
                      && forall i :: 0 <= i < k1 ==> ItemAt(items, i, d).Ok?;
            var k2 :| 0 <= k2 < n && ItemAt(items, k2, d) == Err(e2)
                      && forall i :: 0 <= i < k2 ==> ItemAt(items, i, d).Ok?;
            assert k1 == k2;
        }
    }
  }

  /** A failing iteration below the count fails the whole collection: no partial result. */
  lemma AnyFailureAbortsCollection<S>(env: StepsEnvelope, d: VariantDecoders<S>, k: nat)
    requires k < env.count as int
    requires ItemAt(env.items, k, d).Err?
    ensures DecodeSteps(env, d).Err?
  {
  }

  /** Items past the declared count are never looked at. */
  lemma TrailingItemsIgnored<S>(env: StepsEnvelope, extra: seq<Option<StepEnvelope>>, d: VariantDecoders<S>)
    requires env.count as int <= |env.items|
    ensures DecodeSteps(env.(items := env.items + extra), d) == DecodeSteps(env, d)
  {
    if env.count >= 0 {
      var n := env.count as nat;
      var long := env.items + extra;
      forall i: nat | i < n
        ensures ItemAt(long, i, d) == ItemAt(env.items, i, d)
      {
        assert long[i] == env.items[i];
      }
      var r := DecodeSteps(env, d);
      assert DecodedAll(long, n, d, r) by {
        match r
        case Ok(steps) =>
        case Err(e) =>
          var k :| 0 <= k < n && ItemAt(env.items, k, d) == Err(e)
                   && forall i :: 0 <= i < k ==> ItemAt(env.items, i, d).Ok?;
          assert ItemAt(long, k, d) == Err(e);
      }
      DecodedAllUnique(long, n, d, r, DecodeSteps(env.(items := long), d));
    }
  }

  /** A count past the array fails at the first missing index once every real item decoded. */
  lemma CountBeyondItemsFails<S>(env: StepsEnvelope, d: VariantDecoders<S>)
    requires |env.items| < env.count as int
    requires forall i :: 0 <= i < |env.items| ==> DecodeStep(Reencode(env.items[i]), d).Ok?
    ensures DecodeSteps(env, d) == Err(ItemIndexOutOfRange(|env.items|, |env.items|))
  {
    var n := env.count as nat;
    var r: Result<seq<Step<S>>, DecodeError> := Err(ItemIndexOutOfRange(|env.items|, |env.items|));
    assert DecodedAll(env.items, n, d, r) by {
      assert ItemAt(env.items, |env.items|, d) == Err(r.error);
      assert forall i :: 0 <= i < |env.items| ==> ItemAt(env.items, i, d).Ok?;
    }
    DecodedAllUnique(env.items, n, d, r, DecodeSteps(env, d));
  }

  /**
   Input order is output order: a command-line item followed by a PowerShell
   item decodes to a command-line step followed by a PowerShell step.
   */
  lemma CollectionPreservesOrder<S>(a: StepEnvelope, b: StepEnvelope, d: VariantDecoders<S>)
    requires a.stepType == StepTypeCommandLine && b.stepType == StepTypePowershell
    requires d.commandLine(a).Ok? && d.powershell(b).Ok?
    ensures DecodeSteps(StepsEnvelope(2, [Some(a), Some(b)]), d)
            == Ok([CommandLineStep(d.commandLine(a).value), PowerShellStep(d.powershell(b).value)])
  {
    var items := [Some(a), Some(b)];
    var expected := [CommandLineStep(d.commandLine(a).value), PowerShellStep(d.powershell(b).value)];
    assert ItemAt(items, 0, d) == Ok(expected[0]);
    assert ItemAt(items, 1, d) == Ok(expected[1]);
    DecodedAllUnique(items, 2, d, Ok(expected), DecodeSteps(StepsEnvelope(2, items), d));
  }
}

=== FILE: trigger_schedule_options.dfy ===
/**
 Options of a scheduled build trigger and their mapping to and from a
 property bag. The field/key table is an explicit descriptor list: a field is
 written unless it holds its zero value and is not forced, and decoding starts
 from the all-zero record and fills in the keys that are present.
 */
module ScheduleOptions {
  import opened Results
  import opened PropertyBags

  /** The artifact-dependency revision rule: a string enumeration whose zero value is "". */
  type Revision = string

  const LatestFinishedBuild: Revision := "lastFinished"

  datatype TriggerScheduleOptions = TriggerScheduleOptions(
    queueOptimization: bool,
    promoteWatchedBuild: bool,
    buildWithPendingChangesOnly: bool,
    triggerIfWatchedBuildChanges: bool,
    buildOnAllCompatibleAgents: bool,
    revisionRuleSourceBuildId: string,
    revisionRule: Revision,
    revisionRuleBuildBranch: string,
    enforceCleanCheckout: bool,
    enforceCleanCheckoutForDependencies: bool)

  /** The record with every field at its zero value. */
  const ZeroOptions := TriggerScheduleOptions(false, false, false, false, false, "", "", "", false, false)

  /** Names the ten fields, in declaration order. */
  datatype Field =
    | QueueOptimization
    | PromoteWatchedBuild
    | BuildWithPendingChangesOnly
    | TriggerIfWatchedBuildChanges
    | BuildOnAllCompatibleAgents
    | RevisionRuleSourceBuildId
    | RevisionRule
    | RevisionRuleBuildBranch
    | EnforceCleanCheckout
    | EnforceCleanCheckoutForDependencies

  /** The value of one field: the record holds booleans and strings only. */
  datatype FieldValue = BoolValue(b: bool) | StringValue(s: string)

  predicate IsBoolField(f: Field)
  {
    !(f == RevisionRuleSourceBuildId || f == RevisionRule || f == RevisionRuleBuildBranch)
  }

  /** A value fits a field when it has the field's type. */
  predicate Fits(f: Field, v: FieldValue)
  {
    v.BoolValue? == IsBoolField(f)
  }

  /** The zero value of a field's type. */
  function ZeroValue(f: Field): (v: FieldValue)
    ensures Fits(f, v)
  {
    if IsBoolField(f) then BoolValue(false) else StringValue("")
  }

  /** A value is zero when it is `false` or the empty string. */
  predicate IsZero(v: FieldValue)
  {
    v == BoolValue(false) || v == StringValue("")
  }

  /** For a value of a field's type, being zero and being that field's zero value are the same. */
  lemma IsZeroIsZeroValue(f: Field, v: FieldValue)
    requires Fits(f, v)
    ensures IsZero(v) <==> v == ZeroValue(f)
  {
  }

  /** Field getter of the descriptor table. */
  function Get(o: TriggerScheduleOptions, f: Field): (v: FieldValue)
    ensures Fits(f, v)
  {
    match f
    case QueueOptimization => BoolValue(o.queueOptimization)
    case PromoteWatchedBuild => BoolValue(o.promoteWatchedBuild)
    case BuildWithPendingChangesOnly => BoolValue(o.buildWithPendingChangesOnly)
    case TriggerIfWatchedBuildChanges => BoolValue(o.triggerIfWatchedBuildChanges)
    case BuildOnAllCompatibleAgents => BoolValue(o.buildOnAllCompatibleAgents)
    case RevisionRuleSourceBuildId => StringValue(o.revisionRuleSourceBuildId)
    case RevisionRule => StringValue(o.revisionRule)
    case RevisionRuleBuildBranch => StringValue(o.revisionRuleBuildBranch)
    case EnforceCleanCheckout => BoolValue(o.enforceCleanCheckout)
    case EnforceCleanCheckoutForDependencies => BoolValue(o.enforceCleanCheckoutForDependencies)
  }

  /** Every field of the zero record holds its zero value. */
  lemma ZeroOptionsField(f: Field)
    ensures Get(ZeroOptions, f) == ZeroValue(f)
  {
  }

  /** Field setter of the descriptor table. */
  function Set(o: TriggerScheduleOptions, f: Field, v: FieldValue): (r: TriggerScheduleOptions)
    requires Fits(f, v)
    ensures Get(r, f) == v
  {
    match f
    case QueueOptimization => o.(queueOptimization := v.b)
    case PromoteWatchedBuild => o.(promoteWatchedBuild := v.b)
    case BuildWithPendingChangesOnly => o.(buildWithPendingChangesOnly := v.b)
    case TriggerIfWatchedBuildChanges => o.(triggerIfWatchedBuildChanges := v.b)
    case BuildOnAllCompatibleAgents => o.(buildOnAllCompatibleAgents := v.b)
    case RevisionRuleSourceBuildId => o.(revisionRuleSourceBuildId := v.s)
    case RevisionRule => o.(revisionRule := v.s)
    case RevisionRuleBuildBranch => o.(revisionRuleBuildBranch := v.s)
    case EnforceCleanCheckout => o.(enforceCleanCheckout := v.b)
    case EnforceCleanCheckoutForDependencies => o.(enforceCleanCheckoutForDependencies := v.b)
  }

  /** Setting one field leaves every other field as it was. */
  lemma SetLeavesOthers(o: TriggerScheduleOptions, f: Field, v: FieldValue, g: Field)
    requires Fits(f, v)
    requires g != f
    ensures Get(Set(o, f, v), g) == Get(o, g)
  {
    match f
    case QueueOptimization =>
    case PromoteWatchedBuild =>
    case BuildWithPendingChangesOnly =>
    case TriggerIfWatchedBuildChanges =>
    case BuildOnAllCompatibleAgents =>
    case RevisionRuleSourceBuildId =>
    case RevisionRule =>
    case RevisionRuleBuildBranch =>
    case EnforceCleanCheckout =>
    case EnforceCleanCheckoutForDependencies =>
  }

  /** Two records that agree on every field are the same record. */
  lemma Extensionality(a: TriggerScheduleOptions, b: TriggerScheduleOptions)
    requires forall f :: Get(a, f) == Get(b, f)
    ensures a == b
  {
    assert Get(a, QueueOptimization) == Get(b, QueueOptimization);
    assert Get(a, PromoteWatchedBuild) == Get(b, PromoteWatchedBuild);
    assert Get(a, BuildWithPendingChangesOnly) == Get(b, BuildWithPendingChangesOnly);
    assert Get(a, TriggerIfWatchedBuildChanges) == Get(b, TriggerIfWatchedBuildChanges);
    assert Get(a, BuildOnAllCompatibleAgents) == Get(b, BuildOnAllCompatibleAgents);
    assert Get(a, RevisionRuleSourceBuildId) == Get(b, RevisionRuleSourceBuildId);
    assert Get(a, RevisionRule) == Get(b, RevisionRule);
    assert Get(a, RevisionRuleBuildBranch) == Get(b, RevisionRuleBuildBranch);
    assert Get(a, EnforceCleanCheckout) == Get(b, EnforceCleanCheckout);
    assert Get(a, EnforceCleanCheckoutForDependencies) == Get(b, EnforceCleanCheckoutForDependencies);
  }

  /** The wire form of a field value: booleans as "true"/"false", strings as they are. */
  function Format(v: FieldValue): (s: string)
    ensures v.BoolValue? ==> ParseBool(s) == Some(v.b)
    ensures v.StringValue? ==> s == v.s
  {
    match v
    case BoolValue(b) => FormatBool(b)
    case StringValue(s) => s
  }

  /** Reads a wire value into field `f`; a string that is not a boolean leaves a boolean field false. */
  function Parse(f: Field, s: string): (v: FieldValue)
    ensures Fits(f, v)
    ensures !IsBoolField(f) ==> v == StringValue(s)
    ensures IsBoolField(f) ==> (v.b <==> ParseBool(s) == Some(true))
  {
    if IsBoolField(f) then BoolValue(ParseBool(s) == Some(true)) else StringValue(s)
  }

  /** Reading back a formatted value gives the value. */
  lemma ParseFormat(f: Field, v: FieldValue)
    requires Fits(f, v)
    ensures Parse(f, Format(v)) == v
  {
  }

  /** One row of the field table: property key and whether the field is always written. */
  datatype Descriptor = Descriptor(field: Field, key: string, force: bool)

  const Descriptors: seq<Descriptor> := [
    Descriptor(QueueOptimization, "enableQueueOptimization", true),
    Descriptor(PromoteWatchedBuild, "promoteWatchedBuild", true),
    Descriptor(BuildWithPendingChangesOnly, "triggerBuildWithPendingChangesOnly", true),
    Descriptor(TriggerIfWatchedBuildChanges, "triggerBuildIfWatchedBuildChanges", false),
    Descriptor(BuildOnAllCompatibleAgents, "triggerBuildOnAllCompatibleAgents", false),
    Descriptor(RevisionRuleSourceBuildId, "revisionRuleDependsOn", false),
    Descriptor(RevisionRule, "revisionRule", false),
    Descriptor(RevisionRuleBuildBranch, "revisionRuleBuildBranch", false),
    Descriptor(EnforceCleanCheckout, "enforceCleanCheckout", false),
    Descriptor(EnforceCleanCheckoutForDependencies, "enforceCleanCheckoutForDependencies", false)]

  function Keys(ds: seq<Descriptor>): (ks: seq<string>)
    ensures |ks| == |ds|
    ensures forall i :: 0 <= i < |ds| ==> ks[i] == ds[i].key
  {
    if ds == [] then [] else [ds[0].key] + Keys(ds[1..])
  }

  function FieldsOf(ds: seq<Descriptor>): (fs: seq<Field>)
    ensures |fs| == |ds|
    ensures forall i :: 0 <= i < |ds| ==> fs[i] == ds[i].field
  {
    if ds == [] then [] else [ds[0].field] + FieldsOf(ds[1..])
  }

  /** No field and no key occurs twice in a descriptor list. */
  predicate WellFormed(ds: seq<Descriptor>)
  {
    forall i, j :: 0 <= i < j < |ds| ==> ds[i].field != ds[j].field && ds[i].key != ds[j].key
  }

  /** Tells the table's keys apart: their length, and their thirteenth character when they have one. */
  function KeyTag(k: string): (int, char)
  {
    (|k|, if |k| > 12 then k[12] else ' ')
  }

  /** The tags of the ten keys, in table order; no two are equal. */
  const KeyTags: seq<(int, char)> :=
    [(23, 'p'), (19, 'e'), (34, 'W'), (33, 'I'), (33, 'O'), (21, 'D'), (12, ' '), (23, 'B'), (20, 'C'), (35, 'C')]

  /** Rows at different positions hold different fields and different keys. */
  lemma DescriptorRowsDiffer(i: nat, j: nat)
    requires i < j < |Descriptors|
    ensures Descriptors[i].field != Descriptors[j].field
    ensures Descriptors[i].key != Descriptors[j].key
  {
    assert Position(Descriptors[i].field) == i && Position(Descriptors[j].field) == j;
    RowTag(i);
    RowTag(j);
  }

  /** The tag of row `i`'s key is entry `i` of `KeyTags`. */
  lemma RowTag(i: nat)
    requires i < |Descriptors|
    ensures KeyTag(Descriptors[i].key) == KeyTags[i]
  {
    if i == 0 {
    } else if i == 1 {
    } else if i == 2 {
    } else if i == 3 {
    } else if i == 4 {
    } else if i == 5 {
    } else if i == 6 {
    } else if i == 7 {
    } else if i == 8 {
    } else {
    }
  }

  /** The table names no field twice and uses ten pairwise distinct keys. */
  lemma DescriptorsWellFormed()
    ensures WellFormed(Descriptors)
    ensures Distinct(Keys(Descriptors))
  {
    forall i, j | 0 <= i < j < |Descriptors|
      ensures Descriptors[i].field != Descriptors[j].field && Descriptors[i].key != Descriptors[j].key
    {
      DescriptorRowsDiffer(i, j);
    }
  }

  /** Where a field sits in the table: every field has a row. */
  function Position(f: Field): (i: nat)
    ensures i < |Descriptors| && Descriptors[i].field == f
  {
    match f
    case QueueOptimization => 0
    case PromoteWatchedBuild => 1
    case BuildWithPendingChangesOnly => 2
    case TriggerIfWatchedBuildChanges => 3
    case BuildOnAllCompatibleAgents => 4
    case RevisionRuleSourceBuildId => 5
    case RevisionRule => 6
    case RevisionRuleBuildBranch => 7
    case EnforceCleanCheckout => 8
    case EnforceCleanCheckoutForDependencies => 9
  }

  /** The emission rule: a field is written unless it is at its zero value and not forced. */
  predicate Emitted(o: TriggerScheduleOptions, d: Descriptor)
  {
    d.force || !IsZero(Get(o, d.field))
  }

  /** Serialises the fields of `ds`, in list order. */
  function EncodeWith(o: TriggerScheduleOptions, ds: seq<Descriptor>): (bag: PropertyBag)
    ensures |bag| <= |ds|
  {
    if ds == [] then []
    else
      var rest := EncodeWith(o, ds[1..]);
      if Emitted(o, ds[0]) then [Property(ds[0].key, Format(Get(o, ds[0].field)))] + rest else rest
  }

  /** The value field `f` gets from the entry under `key`, or `current` when there is none. */
  function ReadKey(bag: PropertyBag, key: string, f: Field, current: FieldValue): FieldValue
  {
    match Lookup(bag, key)
    case Some(s) => Parse(f, s)
    case None => current
  }

  /** Reads one descriptor's key from `bag` into `o`; an absent key leaves the field alone. */
  function FillField(o: TriggerScheduleOptions, bag: PropertyBag, d: Descriptor): (r: TriggerScheduleOptions)
    ensures d.key !in Names(bag) ==> r == o
    ensures d.key in Names(bag) ==> Get(r, d.field) == Parse(d.field, Lookup(bag, d.key).value)
  {
    match Lookup(bag, d.key)
    case Some(s) => Set(o, d.field, Parse(d.field, s))
    case None => o
  }

  /** Reads the keys of `ds` from `bag` into `o`, in list order. */
  function DecodeWith(o: TriggerScheduleOptions, bag: PropertyBag, ds: seq<Descriptor>): (r: TriggerScheduleOptions)
    ensures (forall i :: 0 <= i < |ds| ==> ds[i].key !in Names(bag)) ==> r == o
    decreases |ds|
  {
    if ds == [] then o else DecodeWith(FillField(o, bag, ds[0]), bag, ds[1..])
  }

  /** The options a new schedule trigger starts with. */
  function NewTriggerScheduleOptions(): (o: TriggerScheduleOptions)
    ensures o.queueOptimization && o.promoteWatchedBuild && o.buildWithPendingChangesOnly
    ensures o.revisionRuleBuildBranch == "<default>" && o.revisionRule == LatestFinishedBuild
    ensures forall f :: (f !in {QueueOptimization, PromoteWatchedBuild, BuildWithPendingChangesOnly,
                                RevisionRuleBuildBranch, RevisionRule}) ==> Get(o, f) == ZeroValue(f)
  {
    ZeroOptions.(queueOptimization := true, promoteWatchedBuild := true, buildWithPendingChangesOnly := true,
                 revisionRuleBuildBranch := "<default>", revisionRule := LatestFinishedBuild)
  }

  /** Every field has a row in the table. */
  lemma EveryFieldListed()
    ensures forall f :: f in FieldsOf(Descriptors)
  {
    forall f
      ensures f in FieldsOf(Descriptors)
    {
      assert FieldsOf(Descriptors)[Position(f)] == f;
    }
  }

  /** Encode: the property bag sent to the server; decoding it gives the options back. */
  function ToProperties(o: TriggerScheduleOptions): (bag: PropertyBag)
    ensures DecodeWith(ZeroOptions, bag, Descriptors) == o
    ensures Distinct(Names(bag))
  {
    DescriptorsWellFormed();
    EveryFieldListed();
    RoundTripWith(o, Descriptors);
    EncodeWithDistinct(o, Descriptors);
    EncodeWith(o, Descriptors)
  }

  /**
   Decode: starts from the zero record, not from the defaults. Each row's
   field holds the parsed first value under its key, or its zero value.
   */
  function FromProperties(bag: PropertyBag): (o: TriggerScheduleOptions)
    ensures forall i :: 0 <= i < |Descriptors| ==>
              Get(o, Descriptors[i].field) ==
                ReadKey(bag, Descriptors[i].key, Descriptors[i].field, Get(ZeroOptions, Descriptors[i].field))
  {
    DescriptorsWellFormed();
    DecodeWithAll(ZeroOptions, bag, Descriptors);
    DecodeWith(ZeroOptions, bag, Descriptors)
  }

  /** The keys written by `EncodeWith` are those of `ds` that pass the emission rule. */
  lemma {:induction false} EncodeWithLookup(o: TriggerScheduleOptions, ds: seq<Descriptor>, key: string)
    requires WellFormed(ds)
    ensures key !in Keys(ds) ==> Lookup(EncodeWith(o, ds), key) == None
    ensures forall i :: 0 <= i < |ds| && ds[i].key == key ==>
              Lookup(EncodeWith(o, ds), key) ==
                (if Emitted(o, ds[i]) then Some(Format(Get(o, ds[i].field))) else None)
    decreases |ds|
  {
    if ds != [] {
      assert WellFormed(ds[1..]);
      EncodeWithLookup(o, ds[1..], key);
      assert forall i :: 1 <= i < |ds| ==> ds[1..][i - 1] == ds[i];
      assert Keys(ds) == [ds[0].key] + Keys(ds[1..]);
      if ds[0].key == key {
        assert key !in Keys(ds[1..]);
      }
    }
  }

  /** Filling one descriptor changes its own field as `ReadKey` says and no other field. */
  lemma FillFieldGet(o: TriggerScheduleOptions, bag: PropertyBag, d: Descriptor, g: Field)
    ensures Get(FillField(o, bag, d), g) ==
              (if g == d.field then ReadKey(bag, d.key, g, Get(o, g)) else Get(o, g))
  {
    if Lookup(bag, d.key).Some? && g != d.field {
      SetLeavesOthers(o, d.field, Parse(d.field, Lookup(bag, d.key).value), g);
    }
  }

  /** A field that no descriptor of `ds` names keeps its value through `DecodeWith`. */
  lemma {:induction false} DecodeWithUnlisted(o: TriggerScheduleOptions, bag: PropertyBag, ds: seq<Descriptor>, f: Field)
    requires forall i :: 0 <= i < |ds| ==> ds[i].field != f
    ensures Get(DecodeWith(o, bag, ds), f) == Get(o, f)
    decreases |ds|
  {
    if ds != [] {
      FillFieldGet(o, bag, ds[0], f);
      assert forall i :: 0 <= i < |ds[1..]| ==> ds[1..][i] == ds[i + 1];
      DecodeWithUnlisted(FillField(o, bag, ds[0]), bag, ds[1..], f);
    }
  }

  /** What `DecodeWith` leaves in the field of row `i`: the parsed first value under its key, or the old value. */
  lemma {:induction false} DecodeWithGet(o: TriggerScheduleOptions, bag: PropertyBag, ds: seq<Descriptor>, i: nat)
    requires WellFormed(ds)
    requires i < |ds|
    ensures Get(DecodeWith(o, bag, ds), ds[i].field) == ReadKey(bag, ds[i].key, ds[i].field, Get(o, ds[i].field))
    decreases |ds|
  {
    var f := ds[i].field;
    var o' := FillField(o, bag, ds[0]);
    FillFieldGet(o, bag, ds[0], f);
    if i == 0 {
      assert forall j :: 0 <= j < |ds[1..]| ==> ds[1..][j] == ds[j + 1];
      DecodeWithUnlisted(o', bag, ds[1..], f);
    } else {
      assert WellFormed(ds[1..]);
      assert ds[1..][i - 1] == ds[i];
      DecodeWithGet(o', bag, ds[1..], i - 1);
    }
  }

  /** `DecodeWithGet` for every row at once. */
  lemma DecodeWithAll(o: TriggerScheduleOptions, bag: PropertyBag, ds: seq<Descriptor>)
    requires WellFormed(ds)
    ensures forall i :: 0 <= i < |ds| ==>
              Get(DecodeWith(o, bag, ds), ds[i].field) == ReadKey(bag, ds[i].key, ds[i].field, Get(o, ds[i].field))
  {
    forall i | 0 <= i < |ds|
      ensures Get(DecodeWith(o, bag, ds), ds[i].field) == ReadKey(bag, ds[i].key, ds[i].field, Get(o, ds[i].field))
    {
      DecodeWithGet(o, bag, ds, i);
    }
  }

  /** Encoded keys appear at most once. */
  lemma {:induction false} EncodeWithDistinct(o: TriggerScheduleOptions, ds: seq<Descriptor>)
    requires WellFormed(ds)
    ensures Distinct(Names(EncodeWith(o, ds)))
    ensures forall n :: n in Names(EncodeWith(o, ds)) ==> n in Keys(ds)
    decreases |ds|
  {
    if ds != [] {
      assert WellFormed(ds[1..]);
      EncodeWithDistinct(o, ds[1..]);
      var rest := EncodeWith(o, ds[1..]);
      assert Keys(ds) == [ds[0].key] + Keys(ds[1..]);
      assert ds[0].key !in Keys(ds[1..]);
      if Emitted(o, ds[0]) {
        var p := Property(ds[0].key, Format(Get(o, ds[0].field)));
        assert Names([p] + rest) == [p.name] + Names(rest);
      }
    }
  }

  /** `a` is `b` with some elements dropped, the rest kept in order. */
  ghost predicate IsSubsequence(a: seq<string>, b: seq<string>)
    decreases |b|
  {
    if a == [] then true
    else if b == [] then false
    else (a[0] == b[0] && IsSubsequence(a[1..], b[1..])) || IsSubsequence(a, b[1..])
  }

  /** Encoded entries follow the order of the descriptor list. */
  lemma {:induction false} EncodeWithOrdered(o: TriggerScheduleOptions, ds: seq<Descriptor>)
    ensures IsSubsequence(Names(EncodeWith(o, ds)), Keys(ds))
    decreases |ds|
  {
    if ds != [] {
      EncodeWithOrdered(o, ds[1..]);
      var rest := EncodeWith(o, ds[1..]);
      assert Keys(ds)[1..] == Keys(ds[1..]);
      if Emitted(o, ds[0]) {
        var p := Property(ds[0].key, Format(Get(o, ds[0].field)));
        assert Names([p] + rest)[1..] == Names(rest);
      }
    }
  }

  /** One row of the emission rule: the entry the encoder writes for descriptor `i`, if any. */
  lemma EncodedEntry(o: TriggerScheduleOptions, i: nat)
    requires i < |Descriptors|
    ensures Lookup(ToProperties(o), Descriptors[i].key) ==
              (if Emitted(o, Descriptors[i]) then Some(Format(Get(o, Descriptors[i].field))) else None)
  {
    DescriptorsWellFormed();
    EncodeWithLookup(o, Descriptors, Descriptors[i].key);
  }

  /**
   The emission rule of the encoder, key by key: a descriptor's key is in
   the bag exactly when its field is forced or non-zero, and then with the
   field's formatted value; a key that names no field is never in the bag.
   */
  lemma EncodeEmissionRule(o: TriggerScheduleOptions)
    ensures forall i :: 0 <= i < |Descriptors| ==>
              Lookup(ToProperties(o), Descriptors[i].key) ==
                (if Emitted(o, Descriptors[i]) then Some(Format(Get(o, Descriptors[i].field))) else None)
    ensures forall key :: key !in Keys(Descriptors) ==> Lookup(ToProperties(o), key) == None
  {
    DescriptorsWellFormed();
    forall key
      ensures key !in Keys(Descriptors) ==> Lookup(ToProperties(o), key) == None
    {
      EncodeWithLookup(o, Descriptors, key);
    }
    forall i | 0 <= i < |Descriptors|
      ensures Lookup(ToProperties(o), Descriptors[i].key) ==
                (if Emitted(o, Descriptors[i]) then Some(Format(Get(o, Descriptors[i].field))) else None)
    {
      EncodedEntry(o, i);
    }
  }

  /** An encoded bag never repeats a key, and holds only the table's keys. */
  lemma EncodeKeysDistinct(o: TriggerScheduleOptions)
    ensures Distinct(Names(ToProperties(o)))
    ensures forall n :: n in Names(ToProperties(o)) ==> n in Keys(Descriptors)
  {
    DescriptorsWellFormed();
    EncodeWithDistinct(o, Descriptors);
  }

  /** Encoded entries follow field declaration order. */
  lemma EncodeFollowsDeclarationOrder(o: TriggerScheduleOptions)
    ensures IsSubsequence(Names(ToProperties(o)), Keys(Descriptors))
  {
    EncodeWithOrdered(o, Descriptors);
  }

  /** The forced rows are the first three: queue optimisation, promote watched build, pending changes only. */
  lemma ForcedRows()
    ensures forall i :: 0 <= i < |Descriptors| ==> (Descriptors[i].force <==> i < 3)
    ensures Descriptors[0].key == "enableQueueOptimization"
    ensures Descriptors[1].key == "promoteWatchedBuild"
    ensures Descriptors[2].key == "triggerBuildWithPendingChangesOnly"
  {
  }

  /** A forced key is in every encoded bag, even when its field is false. */
  lemma ForcedKeysAlwaysPresent(o: TriggerScheduleOptions)
    ensures forall i :: 0 <= i < |Descriptors| && Descriptors[i].force ==>
              Lookup(ToProperties(o), Descriptors[i].key) == Some(Format(Get(o, Descriptors[i].field)))
  {
    forall i | 0 <= i < |Descriptors| && Descriptors[i].force
      ensures Lookup(ToProperties(o), Descriptors[i].key) == Some(Format(Get(o, Descriptors[i].field)))
    {
      EncodedEntry(o, i);
    }
  }

  /** One field of a decoded record: the parsed first value under its key, or zero when the key is absent. */
  lemma DecodedField(bag: PropertyBag, f: Field)
    ensures Get(FromProperties(bag), f) ==
              (match Lookup(bag, Descriptors[Position(f)].key)
               case Some(s) => Parse(f, s)
               case None => ZeroValue(f))
  {
    DescriptorsWellFormed();
    DecodeWithGet(ZeroOptions, bag, Descriptors, Position(f));
  }

  /**
   Decoding, field by field: a field whose key is in the bag holds the parsed
   first value under that key; a field whose key is absent holds its zero value.
   */
  lemma DecodeFieldRule(bag: PropertyBag)
    ensures forall i :: 0 <= i < |Descriptors| ==>
              Get(FromProperties(bag), Descriptors[i].field) ==
                (match Lookup(bag, Descriptors[i].key)
                 case Some(s) => Parse(Descriptors[i].field, s)
                 case None => ZeroValue(Descriptors[i].field))
  {
    DescriptorsWellFormed();
    forall i | 0 <= i < |Descriptors|
      ensures Get(FromProperties(bag), Descriptors[i].field) ==
                (match Lookup(bag, Descriptors[i].key)
                 case Some(s) => Parse(Descriptors[i].field, s)
                 case None => ZeroValue(Descriptors[i].field))
    {
      DecodedField(bag, Descriptors[i].field);
      assert Position(Descriptors[i].field) == i;
    }
  }

  /** An empty bag decodes to the zero record, which is not the defaults record. */
  lemma DecodeEmptyBag()
    ensures FromProperties([]) == ZeroOptions
    ensures FromProperties([]) != NewTriggerScheduleOptions()
  {
    forall f
      ensures Get(FromProperties([]), f) == Get(ZeroOptions, f)
    {
      DecodedField([], f);
    }
    Extensionality(FromProperties([]), ZeroOptions);
  }

  /** One field survives the round trip: it is written, or it is zero and reads back as zero. */
  lemma RoundTripField(o: TriggerScheduleOptions, f: Field)
    ensures Get(FromProperties(ToProperties(o)), f) == Get(o, f)
  {
    var i := Position(f);
    var v := Get(o, f);
    EncodedEntry(o, i);
    DecodedField(ToProperties(o), f);
    if Emitted(o, Descriptors[i]) {
      ParseFormat(f, v);
    } else {
      assert v == ZeroValue(f);
    }
  }

  /**
   Round trip over any well-formed descriptor list that names every field:
   decoding the encoding from the zero record gives the value back.
   */
  lemma RoundTripWith(o: TriggerScheduleOptions, ds: seq<Descriptor>)
    requires WellFormed(ds)
    requires forall f :: f in FieldsOf(ds)
    ensures DecodeWith(ZeroOptions, EncodeWith(o, ds), ds) == o
  {
    forall f
      ensures Get(DecodeWith(ZeroOptions, EncodeWith(o, ds), ds), f) == Get(o, f)
    {
      assert f in FieldsOf(ds);
      var i :| 0 <= i < |ds| && FieldsOf(ds)[i] == f;
      RoundTripWithRow(o, ds, i);
    }
    Extensionality(DecodeWith(ZeroOptions, EncodeWith(o, ds), ds), o);
  }

  /** The field of row `i` survives encoding then decoding over a well-formed list. */
  lemma RoundTripWithRow(o: TriggerScheduleOptions, ds: seq<Descriptor>, i: nat)
    requires WellFormed(ds)
    requires i < |ds|
    ensures Get(DecodeWith(ZeroOptions, EncodeWith(o, ds), ds), ds[i].field) == Get(o, ds[i].field)
  {
    var f := ds[i].field;
    var bag := EncodeWith(o, ds);
    EncodeWithLookup(o, ds, ds[i].key);
    DecodeWithGet(ZeroOptions, bag, ds, i);
    ZeroOptionsField(f);
    if Emitted(o, ds[i]) {
      assert Lookup(bag, ds[i].key) == Some(Format(Get(o, f)));
      ParseFormat(f, Get(o, f));
    } else {
      assert Lookup(bag, ds[i].key) == None;
    }
  }

  /** Round trip: decoding the encoding of any options value gives that value back. */
  lemma RoundTrip(o: TriggerScheduleOptions)
    ensures FromProperties(ToProperties(o)) == o
  {
    forall f
      ensures Get(FromProperties(ToProperties(o)), f) == Get(o, f)
    {
      RoundTripField(o, f);
    }
    Extensionality(FromProperties(ToProperties(o)), o);
  }

  /** Over any descriptor list, an entry whose key the list does not name does not affect decoding. */
  lemma {:induction false} UnknownKeyIgnoredWith(o: TriggerScheduleOptions, front: PropertyBag, p: Property,
                                                 back: PropertyBag, ds: seq<Descriptor>)
    requires p.name !in Keys(ds)
    ensures DecodeWith(o, front + [p] + back, ds) == DecodeWith(o, front + back, ds)
    decreases |ds|
  {
    if ds != [] {
      assert Keys(ds) == [ds[0].key] + Keys(ds[1..]);
      LookupSkipsOtherName(front, p, back, ds[0].key);
      assert FillField(o, front + [p] + back, ds[0]) == FillField(o, front + back, ds[0]);
      UnknownKeyIgnoredWith(FillField(o, front + back, ds[0]), front, p, back, ds[1..]);
    }
  }

  /** A key that names no field does not affect decoding, wherever it sits in the bag. */
  lemma UnknownKeyIgnored(front: PropertyBag, p: Property, back: PropertyBag)
    requires forall i :: 0 <= i < |Descriptors| ==> Descriptors[i].key != p.name
    ensures FromProperties(front + [p] + back) == FromProperties(front + back)
  {
    UnknownKeyIgnoredWith(ZeroOptions, front, p, back, Descriptors);
  }

  /** A value is in canonical wire form for a field when formatting its parse gives it back. */
  predicate Canonical(f: Field, s: string)
  {
    !IsBoolField(f) || s == "true" || s == "false"
  }

  /** Formatting the parse of a canonical value gives the value back. */
  lemma FormatParseCanonical(f: Field, s: string)
    requires Canonical(f, s)
    ensures Format(Parse(f, s)) == s
  {
  }

  /**
   Re-encoding a decoded bag keeps each known entry that is canonical and
   either forced or non-zero, with the same value.
   */
  lemma ReencodeKeepsNonDefaultEntries(bag: PropertyBag, f: Field)
    requires Lookup(bag, Descriptors[Position(f)].key).Some?
    requires Canonical(f, Lookup(bag, Descriptors[Position(f)].key).value)
    requires Descriptors[Position(f)].force || !IsZero(Parse(f, Lookup(bag, Descriptors[Position(f)].key).value))
    ensures Lookup(ToProperties(FromProperties(bag)), Descriptors[Position(f)].key)
            == Lookup(bag, Descriptors[Position(f)].key)
  {
    var i := Position(f);
    var s := Lookup(bag, Descriptors[i].key).value;
    DecodedField(bag, f);
    FormatParseCanonical(f, s);
    EncodedEntry(FromProperties(bag), i);
  }

  /** The entries the encoder writes for the defaults record from row 5 on: the revision rule and the branch. */
  lemma DefaultsTailEntries()
    ensures EncodeWith(NewTriggerScheduleOptions(), Descriptors[5..]) ==
              [Property("revisionRule", LatestFinishedBuild), Property("revisionRuleBuildBranch", "<default>")]
  {
    var o := NewTriggerScheduleOptions();
    var ds := Descriptors;
    assert EncodeWith(o, ds[10..]) == [];
    assert EncodeWith(o, ds[9..]) == [];
    assert EncodeWith(o, ds[8..]) == [];
    assert EncodeWith(o, ds[7..]) == [Property("revisionRuleBuildBranch", "<default>")];
    assert EncodeWith(o, ds[6..]) == [Property("revisionRule", LatestFinishedBuild)] + EncodeWith(o, ds[7..]);
  }

  /** The entries the encoder writes for the defaults record from row 2 on. */
  lemma DefaultsMiddleEntries()
    ensures EncodeWith(NewTriggerScheduleOptions(), Descriptors[2..]) ==
              [Property("triggerBuildWithPendingChangesOnly", "true"),
               Property("revisionRule", LatestFinishedBuild), Property("revisionRuleBuildBranch", "<default>")]
  {
    var o := NewTriggerScheduleOptions();
    var ds := Descriptors;
    DefaultsTailEntries();
    assert EncodeWith(o, ds[4..]) == EncodeWith(o, ds[5..]);
    assert EncodeWith(o, ds[3..]) == EncodeWith(o, ds[4..]);
  }

  /** The entries the encoder writes for the defaults record, row by row. */
  lemma DefaultsEntries()
    ensures EncodeWith(NewTriggerScheduleOptions(), Descriptors) == DefaultsBag
  {
    var o := NewTriggerScheduleOptions();
    var ds := Descriptors;
    DefaultsMiddleEntries();
    DefaultsHeadRows();
  }

  /** The first two rows of the defaults record are written as "true", ahead of the rest. */
  lemma DefaultsHeadRows()
    ensures EncodeWith(NewTriggerScheduleOptions(), Descriptors) ==
              [Property("enableQueueOptimization", "true"), Property("promoteWatchedBuild", "true")]
              + EncodeWith(NewTriggerScheduleOptions(), Descriptors[2..])
  {
    EncodeWithTrueTrue(NewTriggerScheduleOptions(), Descriptors);
  }

  /** A list whose first two rows hold `true` encodes to their two "true" entries followed by the rest. */
  lemma EncodeWithTrueTrue(o: TriggerScheduleOptions, ds: seq<Descriptor>)
    requires |ds| >= 2
    requires Get(o, ds[0].field) == BoolValue(true) && Get(o, ds[1].field) == BoolValue(true)
    ensures EncodeWith(o, ds) == [Property(ds[0].key, "true"), Property(ds[1].key, "true")] + EncodeWith(o, ds[2..])
  {
    assert ds[1..][0] == ds[1] && ds[1..][1..] == ds[2..];
    EncodeWithTrueHead(o, ds[1..]);
    EncodeWithTrueHead(o, ds);
  }

  /** A list whose first row holds `true` encodes to that row's "true" entry followed by the rest. */
  lemma EncodeWithTrueHead(o: TriggerScheduleOptions, ds: seq<Descriptor>)
    requires ds != [] && Get(o, ds[0].field) == BoolValue(true)
    ensures EncodeWith(o, ds) == [Property(ds[0].key, "true")] + EncodeWith(o, ds[1..])
  {
    assert Emitted(o, ds[0]);
    assert Format(BoolValue(true)) == "true";
  }

  /** The defaults record's bag: the three forced "true" entries, then the revision rule and the build branch. */
  const DefaultsBag: PropertyBag := [
    Property("enableQueueOptimization", "true"),
    Property("promoteWatchedBuild", "true"),
    Property("triggerBuildWithPendingChangesOnly", "true"),
    Property("revisionRule", LatestFinishedBuild),
    Property("revisionRuleBuildBranch", "<default>")]

  /** The defaults record encodes to its five non-zero entries, forced keys first, and decodes back. */
  lemma DefaultsEncoding()
    ensures ToProperties(NewTriggerScheduleOptions()) == DefaultsBag
    ensures FromProperties(DefaultsBag) == NewTriggerScheduleOptions()
  {
    DefaultsEntries();
  }
}
